=== FILE: README.md ===
# Round lifecycle of the number-guessing game

This project models the server core of a number-guessing game. A real player
and four computer players sit at a table, a *round*. Each of them guesses a
number in `[0, 10)` with two decimals. Every participant pays 10 credits to
take part. A participant whose guess is below the secret number wins 10 credits
for each whole unit of the gap.

A round moves through three states, CREATED → STARTED → FINISHED:

- `RoundService.create` seats a player at a new table, or reuses or refuses the player's current round.
- `RoundService.start` charges the participants and fills the guess ledger.
- `RoundService.finish` pays the prizes.
- A finished round is moved from the live rounds into an archive when its player asks for a new round.

Around this service the project also models:

- the entities `Player`, `Round` and `RoundArchive`;
- the quantised generator for secret numbers and computer guesses;
- the player service;
- the controller that the socket gateway calls.

The model follows the code's own form:

- **Players and rounds** are classes whose fields (`credit`, `round`, `state`, `players`, `guessedNumbers`) the services update in place.
- **The archive** is a class of constant fields. It is built by a factory method that fails on a round that is not FINISHED.
- **The three repositories** are the maps of a `Db` object. An id counter stands in for the store's generation of object ids.
- **The loops** of `create`, `start`, `finish` and of the controller's `guess` are `while` loops with invariants:
  - the seating loop of `create` (`SeatComputers`) is proved against `IsNewTable`, the shape of a new table, and the ids it hands out;
  - the loops of `start` and `finish` are proved against `Assign` (the ledger after writing guesses in seat order), `FirstNotIn` (the first participant without a guess or ledger entry) and `Payout` (the prize);
  - the loop of `guess` (`WriteGuesses`) is proved against `Assign` and `TableGuesses` (the guess written for each seat), and the lemma `TableLedger` turns that into each participant's entry.
- **The emitter**: the names handed to the event emitter are recorded in the log `RoundService.emitted`.

**Units.** Secret numbers, guesses and credits are whole numbers of hundredths. Every value the game produces is a multiple of 0.01, so this is exact:

- the participation charge is `10 * 100` hundredths;
- the prize for guess `g` below secret `s` is `10 * (s - g)` hundredths, which is 10 credits per whole unit of the gap (`Payout` states the conversion).

**Randomness.** Each value of `Math.random()` is a parameter: `r` with `0 <= r < 1` for the secret, and `random(i)` for the computer player in seat `i`.

**Well-formed rounds.** `Seated(round)` says that participant ids are distinct and that every participant's `round` field points back to the round. This is the inverse side of the one-to-many relation the store maintains, and `create` establishes it. The methods that reach the round through a participant's `round` field require it: `Finish`, `HandleOrderStartedEvent`, `WriteGuesses`, `PlayRound` and `Guess`. `Start` and `ChargeAndRecord` use only the round's own participant list, so they require only distinct ids (`DistinctIds`), which is what keeps one participant's charge from touching another's credit.

**The accepted guess.** The gateway accepts a guess that is positive, at most 9.99 and has at most two decimals. In hundredths that is `Game.IsValidGuess`: `0 < g <= 999`. `Guess` requires it.

## Notes on the code

Where the code and its own comments disagree, the model follows the code:

- **`start` charges before it checks.** The comment on the service (`back/src/round/round.service.ts:21-27`) requires `create`, `start` and `finish` each to make their changes in a single transaction, so a refused `start` should leave every credit as it was. In memory, the code charges each participant and only then checks that participant's guess (`back/src/round/round.service.ts:111-118`). `Start`'s contract states the in-memory result: participants up to and including the first one without a guess are charged, the ledger holds the guesses of those before it, and the round stays CREATED. Whether the store rolls the charges back is the database's business and is not modelled.
- **Events.** The gateway's comment (`back/src/game-events/game-events.gateway.ts:50-58`) lists `round.created`, `round.started` and `round.finished` as the events a client handles. The comment on the listener (`back/src/round/round.service.ts:167-173`) expects `round.started` and then `round.finished`. In the code both `start` and `finish` emit `round.created` (`back/src/round/round.service.ts:125`, `:163`). So the listener on `round.started` (`:174-177`) is never reached through the emitter, and nothing finishes a round automatically. `HandleOrderStartedEvent` models the listener as a direct call.

Two further points follow from the code alone:

- **The controller's guesses never reach `start`.** `GameController.guess` writes the guesses into the round's own ledger. It then hands `start` a local map that is still empty (`back/src/game/game.controller.ts:23-34`). So `Guess` on a CREATED round with participants always has these effects:
  - it fails with the "All players must provide their guess number" client error;
  - it leaves the first participant charged;
  - the round stays CREATED.

  It also overwrites the round's ledger before `start` checks the round's state, even on a STARTED or FINISHED round. `Guess`'s contract states all of this.
- **A fresh round.** `Round`'s constructor assigns only the secret number (`back/src/entities/round.entity.ts:21-23`). `state` has no default and `guessedNumbers` is never initialised. The model takes a fresh round to be CREATED, with no participants and an empty ledger, and `num` to be its column default 1.

## Model

| member | source | states |
|---|---|---|
| SecretNumber.GetSecretNumber | back/src/secret-number/secret-number.service.ts:21-27 | the secret is at least 0, at most MAX − STEP = 9.99 and so below 10, and a whole multiple of STEP = 0.01 |
| SecretNumber.GetComputerPlayerGuess | back/src/secret-number/secret-number.service.ts:33-35 | a computer guess is exactly the secret-number draw for the same entropy, with the same range and step |
| SecretNumber.ToHundredths | back/src/secret-number/secret-number.service.ts:12-13 | a multiple of the step converts to whole hundredths without loss (h / 100 = n) |
| SecretNumber.SecretNumberInHundredths | back/src/secret-number/secret-number.service.ts:21-27 | in hundredths the generator returns floor(1000 · r), one of the values 0 … 999 |
| SecretNumber.EveryOutcomeReachable | back/src/secret-number/secret-number.service.ts:17-27 | each of the 1000 values 0.00 … 9.99 is returned for some entropy value in [0, 1) |
| Entities.RoundStateOrder | back/src/entities/round.entity.ts:5-9 | the enum's values order the states CREATED < STARTED < FINISHED and tell them apart |
| Entities.EventNamesDistinct | back/src/entities/round.entity.ts:11-15 | the three event names are pairwise distinct |
| Entities.Player.constructor | back/src/entities/player.entity.ts:14-22 | a new player has the given type, credit 0 and no round |
| Entities.Round.constructor | back/src/entities/round.entity.ts:20-42 | a new round stores the given secret, has no participants and an empty ledger, and is taken to be CREATED |
| Entities.AssignLookup | back/src/round/round.service.ts:119-120 | writing the guesses of the first n seats in seat order, with distinct ids, maps each of those participants' ids to its guess, adds exactly those ids and keeps every other entry |
| Entities.AssignPrefix | back/src/round/round.service.ts:119-120 | the ledger after the first n seats' writes does not depend on whatever guesses follow those n |
| Entities.AssignStep | back/src/round/round.service.ts:119-120 | recording the guess of the next seat, the one after the n already written, extends the ledger by exactly that participant's entry |
| Entities.FirstNotIn | back/src/round/round.service.ts:111-118 | the first position that is not in a set: all earlier elements are in it, the one at the position is not |
| Entities.RoundArchive.Snapshot | back/src/entities/round-archive.entity.ts:14-25 | built only from a FINISHED round, the archive takes that round's id, secret, number, participants and ledger, with state FINISHED |
| Entities.RoundArchive.FromRound | back/src/entities/round-archive.entity.ts:14-25 | archiving succeeds exactly for a FINISHED round and then yields a fresh copy of its id, secret, number, participants and ledger; otherwise it fails with "Only finished round could be archived" |
| Store.Db.NewPlayer | back/src/player/player.service.ts:17-18 | a new player of the given type, with credit 0 and no round, is stored under a fresh id and nothing else in the store changes |
| Players.PlayerService.Find | back/src/player/player.service.ts:29-33 | the lookup succeeds exactly for a stored id, returns the player stored under it, and fails with not-found otherwise |
| Players.PlayerService.FindOrCreate | back/src/player/player.service.ts:13-27 | without an id, a fresh REAL_USER with credit 0 and no round is stored and returned; with a stored id, that player is returned and the store is unchanged; with an unknown id, a client error and the store is unchanged |
| Rounds.Payout | back/src/round/round.service.ts:151-158 | the prize is never negative, is positive exactly when the guess is strictly below the secret (an exact match wins nothing), and in whole units is 10 × (secret − guess) |
| Rounds.StartedLedgerComplete | back/src/round/round.service.ts:145-150 | after a successful start every participant has a ledger entry, so finish's shape check passes for all of them |
| Rounds.BreakEven | back/src/round/round.service.ts:151-158 | over one round a participant does not lose credit exactly when the guess is at least one whole unit below the secret |
| Rounds.RoundService.ArchiveRound | back/src/round/round.service.ts:47-52 | a FINISHED round is removed from the live rounds and a copy is stored under its id; any other round makes it fail with the store unchanged |
| Rounds.TableIds | back/src/round/round.service.ts:84-86 | the ids at a new table are the requester's and the consecutive new ids after the round's, and no others |
| Rounds.StoreTable | back/src/round/round.service.ts:88 | adding the roster of new players to the player map stores every participant of the table under its id, keeps every earlier entry and adds only the table's ids |
| Rounds.RoundService.SeatComputers | back/src/round/round.service.ts:83-86 | the requester takes seat 0 and four fresh COMPUTER players with credit 0 and the next consecutive ids follow, all referring back to the round, which stays CREATED with an empty ledger; the returned roster maps exactly the new ids to the new players |
| Rounds.RoundService.StoreNewTable | back/src/round/round.service.ts:88 | the round is stored under its id and, by cascade, its new players under theirs: every participant is held, earlier entries are unchanged, only the table's ids are added, and the store stays well-indexed |
| Rounds.RoundService.SeatNewTable | back/src/round/round.service.ts:81-88 | a fresh CREATED round with the given secret and an empty ledger; the player in seat 0 and four fresh COMPUTER players with credit 0 after it, all referring back to the round and stored under new ids; the round takes the store's next id, which no live round holds, and is stored |
| Rounds.RoundService.Create | back/src/round/round.service.ts:61-91 | a CREATED round is returned with nothing changed; a STARTED round gives the "already taking a part" client error with nothing changed; otherwise a FINISHED round is archived, a new 5-seat table with the generated secret is built and stored under an id no live round held, and round.created is logged |
| Rounds.RoundService.ChargeAndRecord | back/src/round/round.service.ts:111-121 | with k the first participant without a guess: the participants up to and including k are charged 10 credits and the rest keep theirs, the ledger gets the guesses of the participants before k, and the loop completes exactly when every participant has a guess |
| Rounds.RoundService.Start | back/src/round/round.service.ts:98-127 | STARTED: returned unchanged; FINISHED: client error, unchanged; CREATED: the participants up to and including the first without a guess are charged 10 credits, the ledger gets the guesses before it, and the round becomes STARTED (logging round.created) exactly when every participant has a guess; the state never goes back |
| Rounds.RoundService.Finish | back/src/round/round.service.ts:134-165 | FINISHED: no change; CREATED: client error; STARTED: each participant before the first without a ledger entry gets the prize for its guess, and the round becomes FINISHED (logging round.created) exactly when all have entries, otherwise a server error; the ledger is untouched and the state never goes back |
| Rounds.RoundService.HandleOrderStartedEvent | back/src/round/round.service.ts:174-177 | the listener awaits finish and passes on its outcome: the round ends FINISHED, and the listener succeeds, exactly when it was FINISHED, or STARTED with a complete ledger; on a STARTED round, round.created is logged once exactly when it finishes and nothing otherwise; a CREATED round rejects with finish's client error and an incomplete STARTED round with its server error; credits are paid as finish pays them, and a round not STARTED is left unchanged |
| Game.ComputerGuess | back/src/game/game.controller.ts:29-32 | a computer guess in hundredths is floor(1000 · r), within 0 … 999 |
| Game.TableLedger | back/src/game/game.controller.ts:24-33 | after the seat-order writes of `guess`, each participant's id is mapped to the requested number if it is the requester's id and to the computer guess drawn for its seat otherwise; only the participants' ids are added and every other entry keeps its value |
| Game.GameController.constructor | back/src/game/game.controller.ts:9-13 | both services work on the same store |
| Game.GameController.StartRound | back/src/game/game.controller.ts:15-19 | resolves or creates the player and calls create once for it. An unknown id, or a player whose round is STARTED, gives a client error with the store and log unchanged. A player whose round is CREATED gets that same round back with the store and log unchanged. A new player, a player without a round, and a player whose round is FINISHED are seated at a new 5-seat table with the generated secret: it is stored with its new players under an id no live round held, the FINISHED round is moved to the archive, and round.created is logged. No stored player's credit changes, and no stored player other than the one returned changes round |
| Game.GameController.WriteGuesses | back/src/game/game.controller.ts:24-33 | the loop writes, in seat order, the requester's number for the requester and a computer guess for each other participant: afterwards the ledger equals those writes applied to the old ledger (`Assign`) and each participant's id maps to that guess (so, by `TableLedger`, only participant ids are added and every other entry keeps its value); the participants and state are unchanged |
| Game.GameController.PlayRound | back/src/game/game.controller.ts:23-34 | the ledger becomes the old ledger with the seat-order table guesses written into it (`Assign`), so each participant's id maps to its table guess and, by `TableLedger`, every other entry is kept; start runs once with an empty map. On a CREATED round with participants, that is the missing-guess client error after only the first participant is charged. A CREATED round without participants becomes STARTED. A STARTED round is returned with credits unchanged. A FINISHED round is refused with credits unchanged |
| Game.GameController.Guess | back/src/game/game.controller.ts:21-35 | an unknown player fails before any round is touched, and a player without a round fails. Otherwise the player's round's ledger becomes the old ledger with every participant's table guess written into it, other entries kept, and start runs once with an empty map, with the outcomes of PlayRound |

## Left out

- Persistence: the MikroORM repositories, `persistAndFlush`, `remove`, `players.init` and the implicit transactions become in-memory maps updated in place. Store failures are not modelled.
- Object ids: the store's ObjectId generation is a counter in `Db`.
- The `num` auto-increment: it is assigned by the store and is informational. A new round carries the column default 1.
- Concurrency: archival runs fire-and-forget in the source. It is modelled as a sequential step before the new table is built, and its failure is ignored.
- The event emitter and its listeners: only the names handed to the emitter are logged. Delivery to the socket gateway, and the asynchronous self-subscription, are not modelled.
- The socket.io gateway (rooms, fan-out, leaving rooms) and the exception filter are network transport. Of them the model keeps:
  - the guess validation, as `IsValidGuess`;
  - the client-error versus server-error split, in the `Exception` datatype.
- Floating point: the generator's arithmetic is exact on reals, as the decimal big-number library computes it. JavaScript's binary doubles for credits and guesses are not modelled; the model counts in exact hundredths.
- `Math.random()` is an input, not a generator. The computer guess for seat `i` uses the draw `random(i)`.

=== FILE: entities.dfy ===
/**
 * The persistent entities of the game: players, rounds and round archives.
 * Players and rounds are mutable objects whose fields the services update in
 * place; an archive is a snapshot that is never changed after construction.
 * Secret numbers, guesses and credits are whole numbers of hundredths.
 */
module Entities {
  import opened Wrappers

  type PlayerId = nat
  type RoundId = nat

  datatype PlayerType = RealUser | Computer

  /** The lifecycle of a round; the enum's numeric values order the states. */
  datatype RoundState = Created | Started | Finished

  function Ordinal(s: RoundState): nat {
    match s
    case Created => 0
    case Started => 1
    case Finished => 2
  }

  /** CREATED < STARTED < FINISHED, and the ordinal tells the states apart. */
  lemma RoundStateOrder()
    ensures Ordinal(Created) < Ordinal(Started) < Ordinal(Finished)
    ensures forall s, t :: Ordinal(s) == Ordinal(t) ==> s == t
  {
  }

  /** A transition that never moves a round's state backwards. */
  predicate NoRegress(before: RoundState, after: RoundState) {
    Ordinal(before) <= Ordinal(after)
  }

  /** The names of the events published about a round. */
  datatype RoundEvents = RoundCreated | RoundStarted | RoundFinished

  function EventName(e: RoundEvents): string {
    match e
    case RoundCreated => "round.created"
    case RoundStarted => "round.started"
    case RoundFinished => "round.finished"
  }

  lemma EventNamesDistinct()
    ensures forall e, f :: EventName(e) == EventName(f) ==> e == f
  {
  }

  class Player {
    const id: PlayerId
    var credit: int
    const kind: PlayerType
    /** The one round the player takes part in, if any. */
    var round: Round?

    constructor (id: PlayerId, kind: PlayerType)
      ensures this.id == id && this.kind == kind
      ensures credit == 0 && round == null
    {
      this.id := id;
      this.kind := kind;
      credit := 0;
      round := null;
    }
  }

  class Round {
    const id: RoundId
    const secretNumber: int
    /** The column default; the store's auto-increment is not modelled. */
    const num: nat
    var state: RoundState
    /** The participants, in the order they were seated. */
    var players: seq<Player>
    /** The guess ledger: one guess per player id. */
    var guessedNumbers: map<PlayerId, int>

    /**
     * The source assigns only the secret number; a fresh round is taken to be
     * CREATED with no participants and an empty ledger.
     */
    constructor (id: RoundId, secretNumber: int)
      ensures this.id == id && this.secretNumber == secretNumber && num == 1
      ensures state == Created && players == [] && guessedNumbers == map[]
    {
      this.id := id;
      this.secretNumber := secretNumber;
      num := 1;
      state := Created;
      players := [];
      guessedNumbers := map[];
    }
  }

  /** Participants carry pairwise distinct ids (and so are distinct objects). */
  ghost predicate DistinctIds(ps: seq<Player>) {
    forall i, j :: 0 <= i < j < |ps| ==> ps[i].id != ps[j].id
  }

  /** Every participant refers back to the round: the inverse side of Round.players. */
  ghost predicate AllSeated(round: Round)
    reads round, round.players
  {
    forall p :: p in round.players ==> p.round == round
  }

  ghost predicate Seated(round: Round)
    reads round, round.players
  {
    DistinctIds(round.players) && AllSeated(round)
  }

  function Ids(ps: seq<Player>): set<PlayerId> {
    set p | p in ps :: p.id
  }

  /** The ids of the participants, in seat order. */
  function IdsOf(ps: seq<Player>): (ids: seq<PlayerId>)
    ensures |ids| == |ps| && forall i :: 0 <= i < |ps| ==> ids[i] == ps[i].id
  {
    seq(|ps|, i requires 0 <= i < |ps| => ps[i].id)
  }

  /**
   * The ledger after writing guesses[j] under ps[j].id for each of the first
   * n seats, in seat order.
   */
  function Assign(ledger: map<PlayerId, int>, ps: seq<Player>, guesses: seq<int>, n: nat): map<PlayerId, int>
    requires n <= |ps| && n <= |guesses|
  {
    if n == 0 then ledger
    else Assign(ledger, ps, guesses, n - 1)[ps[n - 1].id := guesses[n - 1]]
  }

  /** Guesses beyond the first n seats play no part. */
  lemma {:induction false} AssignPrefix(ledger: map<PlayerId, int>, ps: seq<Player>, guesses: seq<int>, more: seq<int>, n: nat)
    requires n <= |ps| && n <= |guesses|
    ensures Assign(ledger, ps, guesses + more, n) == Assign(ledger, ps, guesses, n)
  {
    if n > 0 {
      AssignPrefix(ledger, ps, guesses, more, n - 1);
    }
  }

  /** Writing one more guess extends the ledger by that seat's entry. */
  lemma AssignStep(ledger: map<PlayerId, int>, ps: seq<Player>, guesses: seq<int>, g: int, n: nat)
    requires n < |ps| && n == |guesses|
    ensures Assign(ledger, ps, guesses + [g], n + 1) == Assign(ledger, ps, guesses, n)[ps[n].id := g]
  {
    AssignPrefix(ledger, ps, guesses, [g], n);
  }

  /** Counting every seat, the ids of the first n participants are all the ids. */
  lemma TableIdsAll(ps: seq<Player>)
    ensures IdsUpTo(ps, |ps|) == Ids(ps)
  {
    forall id | id in Ids(ps)
      ensures id in IdsUpTo(ps, |ps|)
    {
      var p :| p in ps && p.id == id;
      var i :| 0 <= i < |ps| && ps[i] == p;
    }
  }

  /** The ids of the first n participants. */
  function IdsUpTo(ps: seq<Player>, n: nat): set<PlayerId>
    requires n <= |ps|
  {
    set i | 0 <= i < n :: ps[i].id
  }

  /**
   * With distinct ids, each of the first n participants' ids is mapped to
   * that participant's guess, and every other entry of the ledger is left as
   * it was.
   */
  lemma {:induction false} AssignLookup(ledger: map<PlayerId, int>, ps: seq<Player>, guesses: seq<int>, n: nat)
    requires n <= |ps| && n <= |guesses| && DistinctIds(ps)
    ensures Assign(ledger, ps, guesses, n).Keys == ledger.Keys + IdsUpTo(ps, n)
    ensures forall i :: 0 <= i < n ==>
      ps[i].id in Assign(ledger, ps, guesses, n) && Assign(ledger, ps, guesses, n)[ps[i].id] == guesses[i]
    ensures forall id :: id in ledger && id !in IdsUpTo(ps, n) ==> Assign(ledger, ps, guesses, n)[id] == ledger[id]
  {
    if n > 0 {
      AssignLookup(ledger, ps, guesses, n - 1);
      assert IdsUpTo(ps, n) == IdsUpTo(ps, n - 1) + {ps[n - 1].id};
    }
  }

  /** With distinct ids, the participant in one seat sits in no other seat. */
  lemma OtherSeats(ps: seq<Player>, i: nat)
    requires i < |ps| && DistinctIds(ps)
    ensures forall j :: 0 <= j < |ps| && j != i ==> ps[j] != ps[i]
  {
  }

  /** The first position whose element is not in `s` (|xs| when there is none). */
  function FirstNotIn<T(==)>(xs: seq<T>, s: set<T>): (k: nat)
    ensures k <= |xs|
    ensures forall j :: 0 <= j < k ==> xs[j] in s
    ensures k < |xs| ==> xs[k] !in s
  {
    if xs == [] || xs[0] !in s then 0 else 1 + FirstNotIn(xs[1..], s)
  }

  /** A position with every earlier element in `s` and none at it is the first one not in `s`. */
  lemma FirstNotInAt<T>(xs: seq<T>, s: set<T>, i: nat)
    requires i <= |xs| && (forall j :: 0 <= j < i ==> xs[j] in s) && (i < |xs| ==> xs[i] !in s)
    ensures FirstNotIn(xs, s) == i
  {
  }

  /**
   * A read-only snapshot of a finished round, stored apart from live rounds.
   * Every field is a value, so later updates of the source round's ledger or
   * participants do not reach it.
   */
  class RoundArchive {
    const id: RoundId
    const secretNumber: int
    const num: nat
    const state: RoundState
    const players: seq<Player>
    const guessedNumbers: map<PlayerId, int>

    constructor Snapshot(round: Round)
      requires round.state == Finished
      ensures id == round.id && secretNumber == round.secretNumber && num == round.num
      ensures state == Finished
      ensures players == round.players && guessedNumbers == round.guessedNumbers
    {
      id := round.id;
      secretNumber := round.secretNumber;
      num := round.num;
      state := Finished;
      players := round.players;
      guessedNumbers := round.guessedNumbers;
    }

    /** `new RoundArchive(round)`: only a FINISHED round can be archived. */
    static method FromRound(round: Round) returns (res: Result<RoundArchive, Exception>)
      ensures res.Success? <==> round.state == Finished
      ensures res.Failure? ==> res.error == ArchiveError(OnlyFinished)
      ensures res.Success? ==> fresh(res.value) && res.value.Copies(round)
    {
      if round.state != Finished {
        return Failure(ArchiveError(OnlyFinished));
      }
      var archive := new RoundArchive.Snapshot(round);
      return Success(archive);
    }

    /** The archive carries the round's identity, secret, number, participants and ledger. */
    ghost predicate Copies(round: Round)
      reads round
    {
      && id == round.id && secretNumber == round.secretNumber && num == round.num
      && state == Finished
      && players == round.players && guessedNumbers == round.guessedNumbers
    }
  }

  const OnlyFinished := "Only finished round could be archived"
}

=== FILE: game_controller.dfy ===
/**
 * The facade the transport layer calls: `startRound` resolves or creates a
 * player and asks for a round; `guess` writes the player's guess and computer
 * guesses into the round's ledger and asks the service to start the round.
 * The random draws behind the computer guesses are a parameter: `random(i)`
 * is the draw used for the participant in seat `i`.
 */
module Game {
  import opened Wrappers
  import opened Entities
  import opened Store
  import opened Players
  import opened Rounds
  import SecretNumber

  /**
   * The guess request's validation, in hundredths: a positive number, at most
   * MAX - STEP, with at most two decimals.
   */
  predicate IsValidGuess(guessedNumber: int) {
    0 < guessedNumber <= SecretNumber.Outcomes - 1
  }

  /** A computer player's guess, in hundredths. */
  function ComputerGuess(r: real): (g: int)
    requires SecretNumber.IsEntropy(r)
    ensures 0 <= g < SecretNumber.Outcomes && g == (r * SecretNumber.Outcomes as real).Floor
  {
    SecretNumber.SecretNumberInHundredths(r);
    SecretNumber.ToHundredths(SecretNumber.GetComputerPlayerGuess(r))
  }

  /**
   * What `guess` writes for each seat, in seat order: the requester's number
   * for the participant with the requester's id, a computer guess for every
   * other participant.
   */
  function TableGuesses(ps: seq<Player>, playerId: PlayerId, guessedNumber: int, random: nat -> real): (guesses: seq<int>)
    requires forall i :: SecretNumber.IsEntropy(random(i))
    ensures |guesses| == |ps|
  {
    seq(|ps|, i requires 0 <= i < |ps| => if ps[i].id == playerId then guessedNumber else ComputerGuess(random(i)))
  }

  /**
   * The ledger after `guess` writes the table's guesses: each participant's
   * id is mapped to the requester's number when it is the requester's id and
   * to the computer guess drawn for its seat otherwise; the participants' ids
   * are the only keys added and every other entry keeps its value.
   */
  lemma TableLedger(ledger: map<PlayerId, int>, ps: seq<Player>, playerId: PlayerId, guessedNumber: int, random: nat -> real)
    requires DistinctIds(ps) && forall i :: SecretNumber.IsEntropy(random(i))
    ensures var after := Assign(ledger, ps, TableGuesses(ps, playerId, guessedNumber, random), |ps|);
      && (forall j :: 0 <= j < |ps| ==>
            && ps[j].id in after
            && after[ps[j].id] == (if ps[j].id == playerId then guessedNumber else ComputerGuess(random(j))))
      && after.Keys == ledger.Keys + Ids(ps)
      && (forall id :: id in ledger && id !in Ids(ps) ==> after[id] == ledger[id])
  {
    AssignLookup(ledger, ps, TableGuesses(ps, playerId, guessedNumber, random), |ps|);
    TableIdsAll(ps);
  }

  class GameController {
    const playerService: PlayerService
    const roundService: RoundService

    constructor (playerService: PlayerService, roundService: RoundService)
      requires playerService.db == roundService.db
      ensures this.playerService == playerService && this.roundService == roundService
      ensures Wired()
    {
      this.playerService := playerService;
      this.roundService := roundService;
    }

    /** Both services work on the same store. */
    ghost predicate Wired() {
      playerService.db == roundService.db
    }

    /** The store both services work on. */
    function SharedDb(): Db {
      playerService.db
    }

    /** The round of the stored player with this id, if any. */
    function SeatOf(playerId: PlayerId): Round?
      reads SharedDb(), SharedDb().players.Values
    {
      if playerId in SharedDb().players then SharedDb().players[playerId].round else null
    }

    /**
     * `startRound`: resolve or create the player, call `create` once for that
     * player, and return the player, who now sits at a CREATED round.
     */
    method StartRound(playerId: Option<PlayerId>, r: real) returns (res: Result<Player, Exception>)
      requires Wired() && SharedDb().Valid() && SecretNumber.IsEntropy(r)
      modifies SharedDb(), roundService, SharedDb().players.Values
      ensures SharedDb().Valid()
      ensures res.Success? <==>
        || playerId.None?
        || (playerId.value in old(SharedDb().players) &&
            (old(SeatOf(playerId.value)) == null || old(SeatOf(playerId.value).state) != Started))
      ensures playerId.Some? && playerId.value !in old(SharedDb().players) ==>
        res == Failure(BadRequest(PlayerNotFound)) && unchanged(SharedDb(), roundService)
      ensures playerId.Some? && playerId.value in old(SharedDb().players) && old(SeatOf(playerId.value)) != null &&
              old(SeatOf(playerId.value).state) == Started ==>
        res == Failure(BadRequest(AlreadyInRound)) && unchanged(SharedDb(), roundService)
      ensures playerId.Some? && playerId.value in old(SharedDb().players) && old(SeatOf(playerId.value)) != null &&
              old(SeatOf(playerId.value).state) == Created ==>
        && res == Success(old(SharedDb().players)[playerId.value])
        && res.value.round == old(SeatOf(playerId.value)) && unchanged(SharedDb(), roundService)
      ensures res.Success? ==>
        && SharedDb().Holds(res.value) && res.value.round != null && res.value.round.state == Created
        && (playerId.Some? ==> res.value == old(SharedDb().players)[playerId.value])
      ensures playerId.None? ==>
        res.Success? && fresh(res.value) && res.value.kind == RealUser && res.value.credit == 0
      ensures forall p :: p in old(SharedDb().players.Values) ==>
        p.credit == old(p.credit) && (p.round == old(p.round) || (res.Success? && p == res.value))
      ensures res.Success? && (playerId.None? || old(SeatOf(playerId.value)) == null ||
                               old(SeatOf(playerId.value).state) == Finished) ==>
        var round := res.value.round;
        && round != null && fresh(round) && round.id !in old(SharedDb().rounds)
        && IsNewTable(round, res.value, SecretNumber.ToHundredths(SecretNumber.GetSecretNumber(r)))
        && (forall i :: 1 <= i < |round.players| ==> fresh(round.players[i]))
        && Joined(old(SharedDb().players), SharedDb().players, round.players)
        && roundService.emitted == old(roundService.emitted) + [RoundCreated]
      ensures res.Success? && (playerId.None? || old(SeatOf(playerId.value)) == null) ==>
        && SharedDb().rounds == old(SharedDb().rounds)[res.value.round.id := res.value.round]
        && SharedDb().archives == old(SharedDb().archives)
      ensures playerId.Some? && playerId.value in old(SharedDb().players) && old(SeatOf(playerId.value)) != null &&
              old(SeatOf(playerId.value).state) == Finished ==>
        var finished := old(SeatOf(playerId.value));
        && res.Success?
        && SharedDb().rounds == (old(SharedDb().rounds) - {finished.id})[res.value.round.id := res.value.round]
        && finished.id in SharedDb().archives && fresh(SharedDb().archives[finished.id])
        && SharedDb().archives[finished.id].Copies(finished)
        && SharedDb().archives == old(SharedDb().archives)[finished.id := SharedDb().archives[finished.id]]
    {
      var found := playerService.FindOrCreate(playerId);
      if found.Failure? {
        return found;
      }
      var player := found.value;
      var created := roundService.Create(player, r);
      if created.Failure? {
        return Failure(created.error);
      }
      return Success(player);
    }

    /**
     * The loop of `guess`: each participant, in seat order, gets the
     * requester's number when its id is the requester's and a computer guess
     * otherwise, written into that participant's round's ledger.
     */
    method WriteGuesses(round: Round, playerId: PlayerId, guessedNumber: int, random: nat -> real)
      requires Seated(round) && forall i :: SecretNumber.IsEntropy(random(i))
      modifies round`guessedNumbers
      ensures round.guessedNumbers ==
        Assign(old(round.guessedNumbers), round.players, TableGuesses(round.players, playerId, guessedNumber, random), |round.players|)
      ensures forall j :: 0 <= j < |round.players| ==>
        && round.players[j].id in round.guessedNumbers
        && round.guessedNumbers[round.players[j].id] ==
           (if round.players[j].id == playerId then guessedNumber else ComputerGuess(random(j)))
    {
      ghost var guesses := TableGuesses(round.players, playerId, guessedNumber, random);
      var i := 0;
      while i < |round.players|
        invariant 0 <= i <= |round.players|
        invariant round.guessedNumbers == Assign(old(round.guessedNumbers), round.players, guesses, i)
      {
        var participant := round.players[i];
        if participant.id == playerId {
          participant.round.guessedNumbers := participant.round.guessedNumbers[participant.id := guessedNumber];
        } else {
          participant.round.guessedNumbers :=
            participant.round.guessedNumbers[participant.id := ComputerGuess(random(i))];
        }
        i := i + 1;
      }
      TableLedger(old(round.guessedNumbers), round.players, playerId, guessedNumber, random);
    }

    /**
     * The round half of `guess`: write a guess for every participant into the
     * round's ledger, then call `start` once on the round with a map of
     * guesses that is still empty.
     */
    method PlayRound(round: Round, playerId: PlayerId, guessedNumber: int, random: nat -> real) returns (res: Result<(), Exception>)
      requires Seated(round) && forall i :: SecretNumber.IsEntropy(random(i))
      modifies roundService`emitted, round`state, round`guessedNumbers, round.players`credit
      ensures round.players == old(round.players)
      ensures round.guessedNumbers ==
        Assign(old(round.guessedNumbers), round.players, TableGuesses(round.players, playerId, guessedNumber, random), |round.players|)
      ensures forall j :: 0 <= j < |round.players| ==>
        && round.players[j].id in round.guessedNumbers
        && round.guessedNumbers[round.players[j].id] ==
           (if round.players[j].id == playerId then guessedNumber else ComputerGuess(random(j)))
      ensures var ps := round.players;
        && (old(round.state) == Created && |ps| > 0 ==>
              && res == Failure(BadRequest(MissingGuess)) && round.state == Created
              && roundService.emitted == old(roundService.emitted)
              && ps[0].credit == old(ps[0].credit) - ParticipationCharge
              && (forall j :: 1 <= j < |ps| ==> ps[j].credit == old(ps[j].credit)))
        && (old(round.state) == Created && |ps| == 0 ==>
              res.Success? && round.state == Started &&
              roundService.emitted == old(roundService.emitted) + [RoundCreated])
        && (old(round.state) == Started ==>
              res.Success? && round.state == Started && roundService.emitted == old(roundService.emitted) &&
              forall j :: 0 <= j < |ps| ==> ps[j].credit == old(ps[j].credit))
        && (old(round.state) == Finished ==>
              res == Failure(BadRequest(CannotStart)) && round.state == Finished &&
              roundService.emitted == old(roundService.emitted) &&
              forall j :: 0 <= j < |ps| ==> ps[j].credit == old(ps[j].credit))
    {
      var guessedNumbers: map<Player, int> := map[];
      WriteGuesses(round, playerId, guessedNumber, random);
      FirstNotInAt(round.players, guessedNumbers.Keys, 0);
      var started := roundService.Start(round, guessedNumbers);
      assert round.players[..0] == [];
      if started.Failure? {
        return Failure(started.error);
      }
      return Success(());
    }

    /**
     * `guess`: find the player (failing on an unknown id before any round is
     * touched), then play the player's round.
     */
    method Guess(playerId: PlayerId, guessedNumber: int, random: nat -> real) returns (res: Result<(), Exception>)
      requires Wired() && IsValidGuess(guessedNumber)
      requires forall i :: SecretNumber.IsEntropy(random(i))
      requires SeatOf(playerId) != null ==> Seated(SeatOf(playerId))
      modifies roundService
      modifies if SeatOf(playerId) == null then {} else {SeatOf(playerId)}
      modifies if SeatOf(playerId) == null then [] else SeatOf(playerId).players
      ensures playerId !in SharedDb().players ==> res == Failure(NotFound) && unchanged(roundService)
      ensures playerId in SharedDb().players && old(SeatOf(playerId)) == null ==>
        res == Failure(NullRound) && unchanged(roundService)
      ensures old(SeatOf(playerId)) != null ==>
        (var round := old(SeatOf(playerId));
         var ps := round.players;
         && ps == old(round.players)
         && round.guessedNumbers ==
            Assign(old(round.guessedNumbers), ps, TableGuesses(ps, playerId, guessedNumber, random), |ps|)
         && (forall j :: 0 <= j < |ps| ==>
               && ps[j].id in round.guessedNumbers
               && round.guessedNumbers[ps[j].id] == (if ps[j].id == playerId then guessedNumber else ComputerGuess(random(j))))
         && (old(round.state) == Created && |ps| > 0 ==>
               && res == Failure(BadRequest(MissingGuess)) && round.state == Created
               && roundService.emitted == old(roundService.emitted)
               && ps[0].credit == old(ps[0].credit) - ParticipationCharge
               && (forall j :: 1 <= j < |ps| ==> ps[j].credit == old(ps[j].credit)))
         && (old(round.state) == Created && |ps| == 0 ==>
               res.Success? && round.state == Started &&
               roundService.emitted == old(roundService.emitted) + [RoundCreated])
         && (old(round.state) == Started ==>
               res.Success? && round.state == Started && roundService.emitted == old(roundService.emitted) &&
               forall j :: 0 <= j < |ps| ==> ps[j].credit == old(ps[j].credit))
         && (old(round.state) == Finished ==>
               res == Failure(BadRequest(CannotStart)) && round.state == Finished &&
               roundService.emitted == old(roundService.emitted) &&
               forall j :: 0 <= j < |ps| ==> ps[j].credit == old(ps[j].credit)))
    {
      var found := playerService.Find(playerId);
      if found.Failure? {
        return Failure(found.error);
      }
      var player := found.value;
      if player.round == null {
        return Failure(NullRound);
      }
      res := PlayRound(player.round, playerId, guessedNumber, random);
    }
  }
}

=== FILE: player_service.dfy ===
/** Player lookup and creation over the player repository. */
module Players {
  import opened Wrappers
  import opened Entities
  import opened Store

  const PlayerNotFound := "Player for such id was not found"

  class PlayerService {
    const db: Db

    constructor (db: Db)
      ensures this.db == db
    {
      this.db := db;
    }

    /** `find`: a read-only lookup that fails on an unknown id. */
    function Find(playerId: PlayerId): (res: Result<Player, Exception>)
      reads db
      ensures res.Success? <==> playerId in db.players
      ensures res.Success? ==> res.value in db.players.Values
      ensures res.Success? && db.Valid() ==> res.value.id == playerId && db.Holds(res.value)
      ensures res.Failure? ==> res.error == NotFound
    {
      if playerId in db.players then Success(db.players[playerId]) else Failure(NotFound)
    }

    /**
     * `findOrCreate`: without an id, a new real player with no credit and no
     * round is stored and returned; with an id, the stored player, or a client
     * error when there is none.
     */
    method FindOrCreate(playerId: Option<PlayerId>) returns (res: Result<Player, Exception>)
      requires db.Valid()
      modifies db
      ensures db.Valid() && db.rounds == old(db.rounds) && db.archives == old(db.archives)
      ensures res.Success? ==> db.Holds(res.value)
      ensures playerId.None? ==>
        && res.Success? && fresh(res.value)
        && res.value.kind == RealUser && res.value.credit == 0 && res.value.round == null
        && res.value.id !in old(db.players)
        && db.players == old(db.players)[res.value.id := res.value]
      ensures playerId.Some? ==>
        && unchanged(db)
        && (res.Success? <==> playerId.value in old(db.players))
        && (res.Success? ==> res.value == old(db.players)[playerId.value])
        && (res.Failure? ==> res.error == BadRequest(PlayerNotFound))
    {
      match playerId
      case None =>
        var player := db.NewPlayer(RealUser);
        return Success(player);
      case Some(id) =>
        var found := Find(id);
        if found.Failure? {
          return Failure(BadRequest(PlayerNotFound));
        }
        return found;
    }
  }
}

=== FILE: round_service.dfy ===
/**
 * The round lifecycle: `create` seats a player at a new table (or reuses or
 * refuses), `start` charges every participant and fills the guess ledger,
 * `finish` pays out and closes the round. Credits, secrets and guesses are
 * in hundredths. Each method changes the entities in place, as the service
 * does; the emitted event names are kept in a log.
 */
module Rounds {
  import opened Wrappers
  import opened Entities
  import opened Store
  import SecretNumber

  /** Table capacity: the requester plus four computer players. */
  const RoundPlayers: nat := 5
  /** The participation cost, in whole credits. */
  const RoundParticipationCredit: int := 10
  /** The participation cost in hundredths of a credit. */
  const ParticipationCharge: int := RoundParticipationCredit * SecretNumber.StepsPerUnit

  const AlreadyInRound := "user already taking a part in another round"
  const CannotStart := "Round couldn't be started"
  const MissingGuess := "All players must provide their guess number"
  const CannotFinish := "Round couldn't be finished"
  const WrongShape := "Wrong round's shape on previous step: all players must provide their guess number"

  /**
   * The prize, in hundredths, for a guess against the secret (both in
   * hundredths): PARTICIPATION_CREDIT times the gap in whole units when the
   * guess is strictly below the secret, nothing otherwise (an exact match
   * included).
   */
  function Payout(secret: int, guess: int): (prize: int)
    ensures prize >= 0
    ensures prize > 0 <==> guess < secret
    ensures prize as real / SecretNumber.StepsPerUnit as real ==
      if guess < secret
      then RoundParticipationCredit as real *
           (secret as real / SecretNumber.StepsPerUnit as real - guess as real / SecretNumber.StepsPerUnit as real)
      else 0.0
  {
    if guess < secret then RoundParticipationCredit * (secret - guess) else 0
  }

  /** The guesses of `ps`, in seat order, read from a map keyed by player. */
  function GuessesFor(ps: seq<Player>, guessed: map<Player, int>): (guesses: seq<int>)
    requires forall p :: p in ps ==> p in guessed
    ensures |guesses| == |ps| && forall i :: 0 <= i < |ps| ==> guesses[i] == guessed[ps[i]]
  {
    seq(|ps|, i requires 0 <= i < |ps| => guessed[ps[i]])
  }

  /** A sequence holding, seat by seat, the guesses of `ps` is `GuessesFor(ps, guessed)`. */
  lemma GuessesForEq(ps: seq<Player>, guessed: map<Player, int>, guesses: seq<int>)
    requires |guesses| == |ps|
    requires forall j :: 0 <= j < |ps| ==> ps[j] in guessed && guesses[j] == guessed[ps[j]]
    ensures guesses == GuessesFor(ps, guessed)
  {
  }

  /**
   * The round `create` builds: CREATED, secret as given, empty ledger, the
   * requester in the first seat and four computer players with no credit in
   * the others, every one of them referring back to the round.
   */
  ghost predicate IsNewTable(round: Round, requester: Player, secret: int)
    reads round, round.players
  {
    && round.state == Created && round.secretNumber == secret && round.guessedNumbers == map[]
    && |round.players| == RoundPlayers && round.players[0] == requester
    && (forall i :: 1 <= i < |round.players| ==>
          round.players[i].kind == Computer && round.players[i].credit == 0)
    && Seated(round)
  }

  /** The ids at a new table: the requester's, then `base + 1`, `base + 2`, ... */
  lemma TableIds(ps: seq<Player>, base: nat)
    requires |ps| >= 1 && ps[0].id <= base
    requires forall j :: 1 <= j < |ps| ==> ps[j].id == base + j
    ensures forall id :: id in Ids(ps) <==> id == ps[0].id || base < id < base + |ps|
    ensures DistinctIds(ps)
  {
    forall id | base < id < base + |ps|
      ensures id in Ids(ps)
    {
      assert ps[id - base].id == id;
    }
  }

  /**
   * `after` is `before` with the participants `ps` stored under their ids:
   * no earlier entry changes and the only new keys are their ids.
   */
  ghost predicate Joined(before: map<PlayerId, Player>, after: map<PlayerId, Player>, ps: seq<Player>) {
    && after.Keys == before.Keys + Ids(ps)
    && (forall id :: id in before ==> after[id] == before[id])
    && (forall p :: p in ps ==> after[p.id] == p)
  }

  /**
   * Storing the roster of a new table next to the stored players: every
   * participant is stored under its id, and no earlier entry changes.
   */
  lemma StoreTable(stored: map<PlayerId, Player>, roster: map<PlayerId, Player>, ps: seq<Player>, base: nat)
    requires forall id :: id in stored ==> id < base
    requires |ps| >= 1 && ps[0].id in stored && stored[ps[0].id] == ps[0]
    requires forall j :: 1 <= j < |ps| ==> ps[j].id == base + j
    requires forall id :: id in roster <==> base < id < base + |ps|
    requires forall j :: 1 <= j < |ps| ==> roster[base + j] == ps[j]
    ensures Joined(stored, stored + roster, ps)
  {
    TableIds(ps, base);
    forall p | p in ps
      ensures p.id in stored + roster && (stored + roster)[p.id] == p
    {
      var j :| 0 <= j < |ps| && ps[j] == p;
      if j > 0 {
        assert p.id == base + j;
      }
    }
  }

  /**
   * The ledger a successful `start` leaves behind has an entry for every
   * participant, so the shape check of `finish` passes for each of them.
   */
  lemma StartedLedgerComplete(ledger: map<PlayerId, int>, ps: seq<Player>, guessed: map<Player, int>)
    requires DistinctIds(ps) && forall p :: p in ps ==> p in guessed
    ensures FirstNotIn(IdsOf(ps), Assign(ledger, ps, GuessesFor(ps, guessed), |ps|).Keys) == |ps|
  {
    AssignLookup(ledger, ps, GuessesFor(ps, guessed), |ps|);
  }

  /**
   * Over a round a participant pays the charge and receives the prize: the
   * balance is non-negative exactly when the guess is at least one whole
   * unit below the secret.
   */
  lemma BreakEven(secret: int, guess: int)
    ensures Payout(secret, guess) - ParticipationCharge >= 0 <==> guess + SecretNumber.StepsPerUnit <= secret
  {
  }

  class RoundService {
    const db: Db
    /** The names handed to the event emitter, oldest first. */
    var emitted: seq<RoundEvents>

    constructor (db: Db)
      ensures this.db == db && emitted == []
    {
      this.db := db;
      emitted := [];
    }

    /**
     * `archiveRound`: snapshot the round, drop it from the live rounds and
     * store the snapshot under the same id. A round that is not FINISHED
     * makes the snapshot fail and nothing is stored or removed.
     */
    method ArchiveRound(round: Round) returns (res: Result<(), Exception>)
      requires db.Valid()
      modifies db`rounds, db`archives
      ensures db.Valid()
      ensures round.state == Finished ==>
        && res.Success?
        && db.rounds == old(db.rounds) - {round.id}
        && round.id in db.archives && fresh(db.archives[round.id])
        && db.archives[round.id].Copies(round)
        && db.archives == old(db.archives)[round.id := db.archives[round.id]]
      ensures round.state != Finished ==>
        res == Failure(ArchiveError(OnlyFinished)) && unchanged(db)
    {
      var made := RoundArchive.FromRound(round);
      if made.Failure? {
        return Failure(made.error);
      }
      db.rounds := db.rounds - {round.id};
      db.archives := db.archives[round.id := made.value];
      return Success(());
    }

    /**
     * The seating loop of `create`: the player takes the first seat and four
     * new COMPUTER players with the next ids join after it, each referring
     * back to the round. The result maps each new id to its player, ready to
     * be stored with the round.
     */
    method SeatComputers(round: Round, player: Player) returns (roster: map<PlayerId, Player>)
      requires db.Valid() && db.nextId == round.id + 1 && round.players == []
      requires player.id < round.id
      requires round.state == Created && round.guessedNumbers == map[]
      modifies db`nextId, round`players, player`round
      ensures db.Valid() && db.nextId == round.id + RoundPlayers
      ensures |round.players| == RoundPlayers && round.players[0] == player
      ensures forall j :: 1 <= j < RoundPlayers ==> fresh(round.players[j]) && round.players[j].id == round.id + j
      ensures IsNewTable(round, player, round.secretNumber)
      ensures forall id :: id in roster <==> round.id < id < round.id + RoundPlayers
      ensures forall id :: id in roster ==> roster[id].id == id
      ensures forall j :: 1 <= j < RoundPlayers ==> roster[round.id + j] == round.players[j]
    {
      round.players := round.players + [player];
      player.round := round;
      roster := map[];
      var idx := 0;
      while idx < RoundPlayers - 1
        invariant 0 <= idx <= RoundPlayers - 1
        invariant db.Valid() && db.nextId == round.id + idx + 1
        invariant |round.players| == idx + 1 && round.players[0] == player
        invariant AllSeated(round)
        invariant forall j :: 1 <= j <= idx ==>
          && fresh(round.players[j]) && round.players[j].id == round.id + j
          && round.players[j].kind == Computer && round.players[j].credit == 0
          && round.players[j].round == round
        invariant forall id :: id in roster <==> round.id < id <= round.id + idx
        invariant forall id :: id in roster ==> roster[id].id == id
        invariant forall j :: 1 <= j <= idx ==> roster[round.id + j] == round.players[j]
      {
        var id := db.NewId();
        var computer := new Player(id, Computer);
        round.players := round.players + [computer];
        computer.round := round;
        roster := roster[id := computer];
        idx := idx + 1;
      }
      TableIds(round.players, round.id);
    }

    /**
     * The `persistAndFlush` of `create`: the new round is stored under its id
     * and, by cascade, the computer players of its roster under theirs; the
     * requester was stored already.
     */
    method StoreNewTable(round: Round, roster: map<PlayerId, Player>)
      requires db.Valid() && round.id < db.nextId && forall id :: id in db.players ==> id < round.id
      requires |round.players| == RoundPlayers && db.Holds(round.players[0]) && round.players[0].id < round.id
      requires forall j :: 1 <= j < RoundPlayers ==> round.players[j].id == round.id + j
      requires forall id :: id in roster <==> round.id < id < round.id + RoundPlayers
      requires forall id :: id in roster ==> roster[id].id == id && id < db.nextId
      requires forall j :: 1 <= j < RoundPlayers ==> roster[round.id + j] == round.players[j]
      modifies db`players, db`rounds
      ensures db.Valid()
      ensures Joined(old(db.players), db.players, round.players)
      ensures db.rounds == old(db.rounds)[round.id := round]
    {
      StoreTable(db.players, roster, round.players, round.id);
      db.players := db.players + roster;
      db.rounds := db.rounds[round.id := round];
    }

    /**
     * The new-round half of `create`: a round with the given secret, the
     * player in the first seat and four new computer players after it, each
     * with a fresh id. Storing the round stores the new players with it.
     */
    method SeatNewTable(player: Player, secret: int) returns (round: Round)
      requires db.Valid() && db.Holds(player)
      modifies db`players, db`rounds, db`nextId, player`round
      ensures db.Valid() && fresh(round) && player.round == round
      ensures round.id == old(db.nextId) && round.id !in old(db.rounds)
      ensures IsNewTable(round, player, secret)
      ensures forall i :: 1 <= i < |round.players| ==> fresh(round.players[i])
      ensures Joined(old(db.players), db.players, round.players)
      ensures db.rounds == old(db.rounds)[round.id := round]
    {
      var roundId := db.NewId();
      round := new Round(roundId, secret);
      var roster := SeatComputers(round, player);
      StoreNewTable(round, roster);
    }

    /**
     * `create`: reuse the player's CREATED round; refuse while the player's
     * round is STARTED; otherwise archive a FINISHED round (a failure there is
     * only logged) and seat the player at a new table with a generated secret.
     */
    method Create(player: Player, r: real) returns (res: Result<Round, Exception>)
      requires db.Valid() && db.Holds(player) && SecretNumber.IsEntropy(r)
      modifies this, db, player`round
      ensures db.Valid()
      ensures old(player.round) != null && old(player.round.state) == Created ==>
        res == Success(old(player.round)) && unchanged(this, db, player)
      ensures old(player.round) != null && old(player.round.state) == Started ==>
        res == Failure(BadRequest(AlreadyInRound)) && unchanged(this, db, player)
      ensures old(player.round) == null || old(player.round.state) == Finished ==>
        && res.Success? && fresh(res.value) && player.round == res.value
        && res.value.id !in old(db.rounds)
        && IsNewTable(res.value, player, SecretNumber.ToHundredths(SecretNumber.GetSecretNumber(r)))
        && (forall i :: 1 <= i < |res.value.players| ==> fresh(res.value.players[i]))
        && (forall p :: p in res.value.players ==> db.Holds(p))
        && db.players.Keys == old(db.players).Keys + Ids(res.value.players)
        && (forall id :: id in old(db.players) ==> db.players[id] == old(db.players)[id])
        && emitted == old(emitted) + [RoundCreated]
      ensures old(player.round) == null ==>
        && db.rounds == old(db.rounds)[player.round.id := player.round]
        && db.archives == old(db.archives)
      ensures old(player.round) != null && old(player.round.state) == Finished ==>
        && db.rounds == (old(db.rounds) - {old(player.round).id})[player.round.id := player.round]
        && old(player.round).id in db.archives && fresh(db.archives[old(player.round).id])
        && db.archives[old(player.round).id].Copies(old(player.round))
        && db.archives == old(db.archives)[old(player.round).id := db.archives[old(player.round).id]]
    {
      if player.round != null && player.round.state == Finished {
        // a failed archival is only logged and does not stop the new round
        var _ := ArchiveRound(player.round);
      } else if player.round != null && player.round.state == Created {
        return Success(player.round);
      } else if player.round != null {
        return Failure(BadRequest(AlreadyInRound));
      }
      var round := SeatNewTable(player, SecretNumber.ToHundredths(SecretNumber.GetSecretNumber(r)));
      emitted := emitted + [RoundCreated];
      return Success(round);
    }

    /**
     * The loop of `start` on a CREATED round: in seat order, charge the
     * participant, then stop if it has no guess, else record its guess. The
     * result says whether every participant had one.
     */
    method ChargeAndRecord(round: Round, guessedNumbers: map<Player, int>) returns (complete: bool)
      requires DistinctIds(round.players)
      modifies round`guessedNumbers, round.players`credit
      ensures
        var k := FirstNotIn(round.players, guessedNumbers.Keys);
        && (complete <==> k == |round.players|)
        && (forall j :: 0 <= j < |round.players| ==>
              round.players[j].credit ==
              old(round.players[j].credit) - (if j <= k then ParticipationCharge else 0))
        && round.guessedNumbers ==
           Assign(old(round.guessedNumbers), round.players, GuessesFor(round.players[..k], guessedNumbers), k)
    {
      ghost var ledger := round.guessedNumbers;
      var ps := round.players;
      ghost var guesses: seq<int> := [];
      complete := true;
      var i := 0;
      while i < |ps|
        invariant 0 <= i <= |ps| && |guesses| == i
        invariant forall j :: 0 <= j < i ==> ps[j] in guessedNumbers && guesses[j] == guessedNumbers[ps[j]]
        invariant forall j :: 0 <= j < |ps| ==>
          ps[j].credit == old(ps[j].credit) - (if j < i then ParticipationCharge else 0)
        invariant round.guessedNumbers == Assign(ledger, ps, guesses, i)
        invariant complete
      {
        var player := ps[i];
        OtherSeats(ps, i);
        player.credit := player.credit - ParticipationCharge;
        if player !in guessedNumbers {
          complete := false;
          break;
        }
        AssignStep(ledger, ps, guesses, guessedNumbers[player], i);
        round.guessedNumbers := round.guessedNumbers[player.id := guessedNumbers[player]];
        guesses := guesses + [guessedNumbers[player]];
        i := i + 1;
      }
      FirstNotInAt(ps, guessedNumbers.Keys, i);
      GuessesForEq(ps[..i], guessedNumbers, guesses);
    }

    /**
     * `start` on a CREATED round charges each participant in seat order and
     * then checks that participant's guess: the first participant without a
     * guess stops the loop with a client error after being charged, and the
     * round stays CREATED. When every participant has a guess, the ledger
     * records them all and the round becomes STARTED. A STARTED round is
     * returned as it is; a FINISHED one is refused.
     */
    method Start(round: Round, guessedNumbers: map<Player, int>) returns (res: Result<Round, Exception>)
      requires DistinctIds(round.players)
      modifies this`emitted, round`state, round`guessedNumbers, round.players`credit
      ensures round.players == old(round.players) && NoRegress(old(round.state), round.state)
      ensures forall p :: p in round.players ==> p.round == old(p.round)
      ensures old(round.state) == Started ==>
        res == Success(round) && unchanged(this, round) && unchanged(round.players)
      ensures old(round.state) == Finished ==>
        res == Failure(BadRequest(CannotStart)) && unchanged(this, round) && unchanged(round.players)
      ensures old(round.state) == Created ==>
        (var k := FirstNotIn(round.players, guessedNumbers.Keys);
         && (res.Success? <==> k == |round.players|)
         && (res.Success? ==>
               res.value == round && round.state == Started && emitted == old(emitted) + [RoundCreated])
         && (res.Failure? ==>
               res.error == BadRequest(MissingGuess) && round.state == Created && emitted == old(emitted))
         && (forall j :: 0 <= j < |round.players| ==>
               round.players[j].credit ==
               old(round.players[j].credit) - (if j <= k then ParticipationCharge else 0))
         && round.guessedNumbers ==
            Assign(old(round.guessedNumbers), round.players, GuessesFor(round.players[..k], guessedNumbers), k))
      ensures old(round.state) == Created && res.Success? ==>
        forall j :: 0 <= j < |round.players| ==>
          round.players[j].id in round.guessedNumbers &&
          round.guessedNumbers[round.players[j].id] == guessedNumbers[round.players[j]]
    {
      if round.state == Started {
        return Success(round);
      }
      if round.state != Created {
        return Failure(BadRequest(CannotStart));
      }
      var complete := ChargeAndRecord(round, guessedNumbers);
      if !complete {
        return Failure(BadRequest(MissingGuess));
      }
      assert round.players[..|round.players|] == round.players;
      AssignLookup(old(round.guessedNumbers), round.players, GuessesFor(round.players, guessedNumbers), |round.players|);
      round.state := Started;
      emitted := emitted + [RoundCreated];
      return Success(round);
    }

    /**
     * `finish` on a STARTED round pays each participant, in seat order, the
     * prize for that participant's ledger entry; a participant without an
     * entry stops the loop with a server error, after the earlier ones were
     * paid, and the round stays STARTED. Otherwise the round becomes
     * FINISHED. A FINISHED round is left alone; a CREATED one is refused.
     */
    method Finish(round: Round) returns (res: Result<Option<Round>, Exception>)
      requires Seated(round)
      modifies this`emitted, round`state, round.players`credit
      ensures round.players == old(round.players) && round.guessedNumbers == old(round.guessedNumbers)
      ensures NoRegress(old(round.state), round.state)
      ensures forall p :: p in round.players ==> p.round == old(p.round)
      ensures old(round.state) == Finished ==>
        res == Success(None) && unchanged(this, round) && unchanged(round.players)
      ensures old(round.state) == Created ==>
        res == Failure(BadRequest(CannotFinish)) && unchanged(this, round) && unchanged(round.players)
      ensures old(round.state) == Started ==>
        (var k := FirstNotIn(IdsOf(round.players), round.guessedNumbers.Keys);
         && (res.Success? <==> k == |round.players|)
         && (res.Success? ==>
               res.value == Some(round) && round.state == Finished && emitted == old(emitted) + [RoundCreated])
         && (res.Failure? ==>
               res.error == InternalServerError(WrongShape) && round.state == Started && emitted == old(emitted))
         && (forall j :: 0 <= j < |round.players| ==>
               round.players[j].credit ==
               old(round.players[j].credit) +
               (if j < k then Payout(round.secretNumber, round.guessedNumbers[round.players[j].id]) else 0)))
    {
      if round.state == Finished {
        return Success(None);
      }
      if round.state != Started {
        return Failure(BadRequest(CannotFinish));
      }
      ghost var ids := IdsOf(round.players);
      var i := 0;
      while i < |round.players|
        invariant 0 <= i <= |round.players|
        invariant round.players == old(round.players) && round.guessedNumbers == old(round.guessedNumbers)
        invariant round.state == Started && emitted == old(emitted)
        invariant forall p :: p in round.players ==> p.round == round
        invariant forall j :: 0 <= j < i ==> ids[j] in round.guessedNumbers
        invariant forall j :: 0 <= j < |round.players| ==>
          round.players[j].credit ==
          old(round.players[j].credit) +
          (if j < i then Payout(round.secretNumber, round.guessedNumbers[round.players[j].id]) else 0)
      {
        var player := round.players[i];
        if player.id !in player.round.guessedNumbers {
          return Failure(InternalServerError(WrongShape));
        }
        if player.round.guessedNumbers[player.id] < player.round.secretNumber {
          var delta := player.round.secretNumber - player.round.guessedNumbers[player.id];
          player.credit := player.credit + RoundParticipationCredit * delta;
        }
        i := i + 1;
      }
      round.state := Finished;
      emitted := emitted + [RoundCreated];
      return Success(Some(round));
    }

    /**
     * The listener for "round.started": finishes the round. No method of the
     * service emits that name, so the listener is only reached by a direct call.
     * Its promise settles with nothing, or rejects with the error of `finish`.
     */
    method HandleOrderStartedEvent(round: Round) returns (res: Result<(), Exception>)
      requires Seated(round)
      modifies this`emitted, round`state, round.players`credit
      ensures NoRegress(old(round.state), round.state)
      ensures round.state == Finished <==>
        old(round.state) == Finished ||
        (old(round.state) == Started &&
         FirstNotIn(IdsOf(round.players), round.guessedNumbers.Keys) == |round.players|)
      ensures res.Failure? <==> round.state != Finished
      ensures old(round.state) == Created ==> res == Failure(BadRequest(CannotFinish))
      ensures old(round.state) == Started && res.Failure? ==> res.error == InternalServerError(WrongShape)
      ensures old(round.state) != Started ==> unchanged(this, round) && unchanged(round.players)
      ensures old(round.state) == Started ==>
        emitted == old(emitted) + (if round.state == Finished then [RoundCreated] else [])
      ensures old(round.state) == Started ==>
        (var k := FirstNotIn(IdsOf(round.players), round.guessedNumbers.Keys);
         forall j :: 0 <= j < |round.players| ==>
           round.players[j].credit ==
           old(round.players[j].credit) +
           (if j < k then Payout(round.secretNumber, round.guessedNumbers[round.players[j].id]) else 0))
    {
      var finished := Finish(round);
      if finished.Failure? {
        return Failure(finished.error);
      }
      return Success(());
    }
  }
}

=== FILE: secret_number.dfy ===
/**
 * The quantised random number generator behind the secret number of a round
 * and the guesses of computer players. The entropy that Math.random() would
 * supply is a parameter `r` with 0 <= r < 1; the arithmetic, which the source
 * performs in decimal big-number arithmetic, is exact on reals here.
 */
module SecretNumber {

  const MaxSecretNumberExclusive: real := 10.0
  const SecretNumberStep: real := 0.01

  /** Number of steps in one unit: the model counts money and guesses in hundredths. */
  const StepsPerUnit: int := 100

  /** Number of distinct values the generator can produce. */
  const Outcomes: int := 1000

  /** A value Math.random() can return. */
  predicate IsEntropy(r: real) {
    0.0 <= r < 1.0
  }

  /** `n` is a whole number of steps. */
  predicate IsMultipleOfStep(n: real) {
    (n / SecretNumberStep).Floor as real == n / SecretNumberStep
  }

  /**
   * r * MAX, divided to an integer by STEP, times STEP: a multiple of the step
   * in [0, MAX - STEP], hence strictly below MAX.
   */
  function GetSecretNumber(r: real): (n: real)
    requires IsEntropy(r)
    ensures 0.0 <= n <= MaxSecretNumberExclusive - SecretNumberStep
    ensures n < MaxSecretNumberExclusive
    ensures IsMultipleOfStep(n)
  {
    var steps := ((r * MaxSecretNumberExclusive) / SecretNumberStep).Floor;
    assert 0 <= steps < Outcomes;
    steps as real * SecretNumberStep
  }

  /** The computer player's guess is drawn exactly like the secret number. */
  function GetComputerPlayerGuess(r: real): (n: real)
    requires IsEntropy(r)
    ensures n == GetSecretNumber(r)
    ensures 0.0 <= n < MaxSecretNumberExclusive && IsMultipleOfStep(n)
  {
    GetSecretNumber(r)
  }

  /** A multiple of the step, as a whole number of hundredths; the conversion is exact. */
  function ToHundredths(n: real): (h: int)
    requires IsMultipleOfStep(n)
    ensures h as real / StepsPerUnit as real == n
  {
    (n / SecretNumberStep).Floor
  }

  /**
   * In hundredths the generator returns floor(1000 * r): one of the 1000
   * values 0 .. 999, i.e. 0.00 .. 9.99.
   */
  lemma SecretNumberInHundredths(r: real)
    requires IsEntropy(r)
    ensures ToHundredths(GetSecretNumber(r)) == (r * Outcomes as real).Floor
    ensures 0 <= ToHundredths(GetSecretNumber(r)) < Outcomes
  {
    var steps := ((r * MaxSecretNumberExclusive) / SecretNumberStep).Floor;
    assert (r * MaxSecretNumberExclusive) / SecretNumberStep == r * Outcomes as real;
    assert GetSecretNumber(r) / SecretNumberStep == steps as real;
  }

  /** Every one of the 1000 values is produced by some entropy value. */
  lemma EveryOutcomeReachable(k: int)
    requires 0 <= k < Outcomes
    ensures IsEntropy(k as real / Outcomes as real)
    ensures ToHundredths(GetSecretNumber(k as real / Outcomes as real)) == k
  {
    var r := k as real / Outcomes as real;
    SecretNumberInHundredths(r);
    assert r * Outcomes as real == k as real;
  }
}

=== FILE: store.dfy ===
/**
 * The in-memory stand-in for the three repositories (players, live rounds,
 * archived rounds). Ids come from a counter, standing in for the store's
 * generation of fresh object ids.
 */
module Store {
  import opened Entities

  /** The store's invariant on the values of its maps and counter. */
  ghost predicate Indexed(players: map<PlayerId, Player>, rounds: map<RoundId, Round>,
                          archives: map<RoundId, RoundArchive>, nextId: nat)
  {
    && (forall id :: id in players ==> players[id].id == id && id < nextId)
    && (forall id :: id in rounds ==> rounds[id].id == id && id < nextId)
    && (forall id :: id in archives ==> archives[id].id == id)
  }

  class Db {
    var players: map<PlayerId, Player>
    var rounds: map<RoundId, Round>
    var archives: map<RoundId, RoundArchive>
    var nextId: nat

    /** Every record is stored under its own id, and every id in use is below the counter. */
    ghost predicate Valid()
      reads this
    {
      Indexed(players, rounds, archives, nextId)
    }

    /** `p` is the stored player with its id. */
    ghost predicate Holds(p: Player)
      reads this
    {
      p.id in players && players[p.id] == p
    }

    constructor ()
      ensures Valid() && players == map[] && rounds == map[] && archives == map[]
    {
      players, rounds, archives := map[], map[], map[];
      nextId := 0;
    }

    method NewId() returns (id: nat)
      requires Valid()
      modifies this`nextId
      ensures Valid() && id == old(nextId) && nextId == id + 1
    {
      id := nextId;
      nextId := nextId + 1;
    }

    /** A new player of the given kind, stored under a fresh id. */
    method NewPlayer(kind: PlayerType) returns (p: Player)
      requires Valid()
      modifies this`players, this`nextId
      ensures Valid() && fresh(p) && p.kind == kind && p.credit == 0 && p.round == null
      ensures p.id == old(nextId) && nextId == p.id + 1
      ensures players == old(players)[p.id := p]
    {
      var id := NewId();
      p := new Player(id, kind);
      players := players[id := p];
    }
  }
}

=== FILE: wrappers.dfy ===
/** Failure-compatible result types and the exceptions the game's services raise. */
module Wrappers {

  datatype Option<+T> = None | Some(value: T)

  datatype Result<+T, +E> = Success(value: T) | Failure(error: E)

  /**
   * The exceptions thrown on the game's paths. BadRequest and
   * InternalServerError are the two HTTP exceptions the transport layer turns
   * into a client error (400) and a server error (500); the others are not
   * HTTP exceptions.
   */
  datatype Exception =
    | BadRequest(message: string)
    | InternalServerError(message: string)
    | NotFound                 // the repository's "find one or fail" on a missing id
    | ArchiveError(message: string)
    | NullRound                // reading a property of a player's absent round
}
